=== FILE: README.md ===
# Tic-tac-toe and ultimate tic-tac-toe rules, in Dafny

A model of the tic-tac-toe family of TicTacToeChess-shared. It covers four parts:

- `TicTacToeGame`: k-in-a-row on an n-by-n board, with the win segments it records.
- `UTicTacToeGame`: ultimate tic-tac-toe. Nine 3-by-3 segment games sit under a 3-by-3 meta game. Each move also routes the opponent to a segment.
- The pure board helpers of the tic-tac-toe AI: line lengths, the longest line through a square, the static evaluation, the empty-board test and the "viable move" test.
- The initial boards and state records of `util.ts`.

The modules are:

- `Types` (`types.dfy`): squares, sides, verdicts, coordinates, segments.
- `Grid` (`grid.dfy`): bounds, the four line directions, and runs of equal marks. A run is counted by `Run` and described declaratively by `IsMaximalRun`.
- `TicTacToe` (`tictactoe.dfy`): the game class as immutable values. Every method is a pure function from the old game to the new one.
- `TicTacToeAI` (`tictactoe_ai.dfy`): the AI helpers. The loops are methods, proved against functional definitions.
- `Util` (`util.dfy`): the initialisers and state records.
- `UltimateTicTacToe` (`utictactoe.dfy`): the ultimate game.

Each operation is tied to an independent description and proved against it:

- `CheckDir` and the AI's `getLineLength` loop agree with the declarative maximal run.
- `move`'s verdict is characterised by the run lengths through the square just played.
- `evaluateState` is proved against a declarative "best line per side".
- `isDraw`, `isBoardEmpty` and `isMoveViable` are proved equivalent to quantified statements about the board.
- The ultimate game keeps an invariant over all reachable states. Its liveness (and the lack of it, as written) is stated as lemmas.

A named assumption, ArrayMoveMeansCoordinates: `UTicTacToeGame.move` passes arrays to `TicTacToeGame.move` at two call sites. One is `[X, Y]` for the segment's move (uTicTacToe.ts:87). The other is `[SX, SY]` for the meta game's move when a segment is won (uTicTacToe.ts:91). `TicTacToeGame.move` reads the properties `X` and `Y` of its argument, which an array does not have. At both sites the model places the mark at the coordinates, which is what the calls evidently mean: `Play` and `MarkMeta` use `TicTacToe.Move`. The call on an array as written is modelled by `TicTacToe.MoveJs`; see Findings.

## Model

| member | source | states |
|---|---|---|
| Types.Opponent | src/gameLogic/ticTacToe.ts:91 | the side handed the turn is never the side that just played |
| Grid.OutOfBounds | src/AI/TicTacToeAI.ts:10-15 | a coordinate is off the n-by-n board iff one of its components is negative or at least n (the AI's copy of the bounds check) |
| Grid.InBoundsIffSquare | src/gameLogic/ticTacToe.ts:60-67 | on an n-by-n board, a coordinate passes `isOutOfBounds` exactly when it names a square of the board |
| Grid.RunIsMaximal | src/gameLogic/ticTacToe.ts:69-74 | the squares counted by a run from p along d all hold the side, and the square after them does not or is off the board |
| Grid.MaximalRunUnique | src/gameLogic/ticTacToe.ts:69-74 | a maximal run has exactly one length, the one the recursive walk finds |
| Grid.RunBelowSize | src/AI/TicTacToeAI.ts:32 | from a square of the board a run is at most n - 1 long, so the `i < board.length` loop bound never cuts a run short |
| Grid.LinesAreOpposite | src/gameLogic/ticTacToe.ts:53-58 | the two directions of each of the four lines are opposite |
| TicTacToe.DefaultGame | src/gameLogic/ticTacToe.ts:28-35 | with every argument defaulted, a new game is a null 10-by-10 board, five in a row, O to move, no verdict |
| TicTacToe.NewGame | src/gameLogic/ticTacToe.ts:28-35 | a new game is well formed, has an all-null board of the given size, the given win condition and starting side, no verdict and no segments |
| TicTacToe.EmptyBoard | src/gameLogic/ticTacToe.ts:76-80 | the board built is size by size and all null |
| TicTacToe.Reset | src/gameLogic/ticTacToe.ts:46-51 | a reset game equals a new game of the same size and win condition started by the other side |
| TicTacToe.ResetTwice | src/gameLogic/ticTacToe.ts:46-51 | resetting twice gives a new game started by the original side |
| TicTacToe.CheckDir | src/gameLogic/ticTacToe.ts:69-74 | the walk stops at the last square of the run after the start, and that square holds the side when the start does |
| TicTacToe.CheckDirFindsRunEnd | src/gameLogic/ticTacToe.ts:69-74 | for every maximal run of length k, the walk ends exactly k steps from the start |
| TicTacToe.OppositeWalksSpan | src/gameLogic/ticTacToe.ts:128 | two walks of j and k steps in opposite directions end at a segment of 1 + j + k squares |
| TicTacToe.SequenceLengthIsRunSum | src/gameLogic/ticTacToe.ts:126-128 | the sequence length computed from the two end points is 1 plus the runs on either side of the square |
| TicTacToe.LongSegments | src/gameLogic/ticTacToe.ts:129-132 | every kept segment comes from the input and is at least winCondition long, every such input segment is kept, and no more are kept than the input has |
| TicTacToe.LongSegmentsAppend | src/gameLogic/ticTacToe.ts:125-133 | the loop pushes per segment: on a concatenation it keeps what it keeps of each part, in that order |
| TicTacToe.LongSegmentsOfOne | src/gameLogic/ticTacToe.ts:129-132 | a single segment is kept exactly when it is at least winCondition long |
| TicTacToe.WinningSegmentsLineByLine | src/gameLogic/ticTacToe.ts:125-133 | the segments pushed are, in table order, each line's segment once if it reaches winCondition and nothing otherwise |
| TicTacToe.WinningSegments | src/gameLogic/ticTacToe.ts:125-133 | some segment is pushed iff one of the four lines through the square reaches winCondition, and at most four are pushed |
| TicTacToe.CheckForWinner | src/gameLogic/ticTacToe.ts:104-134 | a full board is a draw before any line is examined; an off-board or null square changes nothing; otherwise the lines through the square decide the winner and the segments appended |
| TicTacToe.Place | src/gameLogic/ticTacToe.ts:90 | the written square holds the side and every other square is unchanged |
| TicTacToe.Move | src/gameLogic/ticTacToe.ts:82-93 | a move off the board or after a verdict changes nothing; otherwise the mark is written, the turn goes to the other side, and the result is well formed |
| TicTacToe.MoveActive | src/gameLogic/ticTacToe.ts:82-91 | with the side defaulted, an accepted move marks the square for the side to move and hands the turn to the other side; a refused one changes nothing |
| TicTacToe.MoveJs | src/gameLogic/ticTacToe.ts:82-93 | on an object `{X, Y}` the call behaves as `Move`; on an array the destructured coordinates are undefined, the bounds check passes them, and the call throws exactly when the game has no verdict (otherwise it returns the game unchanged) |
| TicTacToe.MoveVerdict | src/gameLogic/ticTacToe.ts:118-133 | after an accepted move that leaves a null square, the mover wins iff some line through the square reaches winCondition, else there is no verdict |
| TicTacToe.MoveWinsIffLongRun | src/gameLogic/ticTacToe.ts:118-133 | the same verdict stated through the runs of marks on both sides of the square |
| TicTacToe.PlayAll | src/gameLogic/ticTacToe.ts:82-93 | every sequence of moves leaves the game well formed |
| TicTacToe.FinishedGameIsTerminal | src/gameLogic/ticTacToe.ts:84-88 | once there is a verdict, no sequence of moves changes the game |
| TicTacToe.IsDraw | src/gameLogic/ticTacToe.ts:95-102 | the loop answers true iff no square is null |
| TicTacToe.MoveWinFirst | src/gameLogic/ticTacToe.ts:104-108 | with lines checked first: the mover wins iff a line reaches winCondition, and a draw is declared iff the board is full and no line does |
| TicTacToe.WinFirstAgreesUntilBoardFills | src/gameLogic/ticTacToe.ts:104-108 | the two check orders agree on every move that leaves a null square |
| TicTacToe.AsWrittenFillingWinIsDraw | src/gameLogic/ticTacToe.ts:104-108 | on a concrete 3-by-3 position, O's move completes the top row and fills the board; as written this is a draw, and with lines first it is O's win |
| TicTacToeAI.CountRun | src/AI/TicTacToeAI.ts:30-41 | the counting loop returns the maximal run along a direction, at most n - 1 |
| TicTacToeAI.GetLineLength | src/AI/TicTacToeAI.ts:24-45 | the two counting loops give 0 for a null or off-board square, and otherwise 1 plus the maximal runs of that mark in both directions |
| TicTacToeAI.LineLengthBounds | src/AI/TicTacToeAI.ts:24-45 | a line length is 0 exactly for a null or off-board square, and at most 2n - 1 through a square of the board |
| TicTacToeAI.Longest | src/AI/TicTacToeAI.ts:48-56 | the running maximum from 0 bounds every length seen, and is one of them or 0 |
| TicTacToeAI.GetMaxLineLength | src/AI/TicTacToeAI.ts:48-56 | the loop returns the longest of the four line lengths, 0 exactly for a null or off-board square |
| TicTacToeAI.MaxLineZeroIffNull | src/AI/TicTacToeAI.ts:48-56 | the longest line through a square is 0 exactly when the square is null or off the board |
| TicTacToeAI.BestLineUnique | src/AI/TicTacToeAI.ts:58-75 | each side has one best-line value: the maximum of the longest-line lengths over its squares |
| TicTacToeAI.EvaluateState | src/AI/TicTacToeAI.ts:58-75 | the score is O's best line minus X's best line, and 0 on an empty board |
| TicTacToeAI.ScoreOfEmptyBoard | src/AI/TicTacToeAI.ts:58-75 | on an empty board both best lines are 0, so the score is 0 |
| TicTacToeAI.IsBoardEmpty | src/AI/TicTacToeAI.ts:77-84 | the loop answers true iff every square is null |
| TicTacToeAI.Occupied | src/AI/TicTacToeAI.ts:88-90 | `isPosNonEmpty`: the square is on the board and not null |
| TicTacToeAI.OccupiedIffMarked | src/AI/TicTacToeAI.ts:88-90 | a square counts as occupied exactly when it is on the board and holds X or O |
| TicTacToeAI.IsMoveViable | src/AI/TicTacToeAI.ts:86-105 | viable iff the square is on the board and null and one of its eight neighbours is occupied; never on an empty board |
| TicTacToeAI.LineLengthMatchesGame | src/AI/TicTacToeAI.ts:17-22 | the AI's line length through an occupied square equals the game's sequence length for the same line |
| TicTacToeAI.GameWinIffLongestLine | src/AI/TicTacToeAI.ts:48-56 | after an accepted move that leaves a null square, the game declares the mover the winner iff the AI's longest line there reaches winCondition |
| Util.NullGrid | src/util.ts:9-18 | the grid has max(size, 0) rows of that many entries, all blank |
| Util.InitTicTacToeBoard | src/util.ts:9-18 | the board is size by size (empty for a negative size) and all null |
| Util.NewGameBoardIsInitBoard | src/util.ts:9-18 | the board a new game builds is the one `initTicTacToeBoard` builds |
| Util.InitTicTacToeState | src/util.ts:20-32 | the initial record is a null 12-by-12 board, five in a row, O to move, zero scores, no verdict |
| Util.InitStateMatchesNewGame | src/util.ts:20-32 | the initial record agrees with a new 12-by-12, five-in-a-row game started by O |
| Util.InitUTicTacToeBoard | src/util.ts:34-43 | nine null 3-by-3 boards on a 3-by-3 grid |
| Util.InitUTicTacToeState | src/util.ts:45-58 | nine null boards, no segment verdicts, no active segment, O to move, zero scores, no verdict |
| UltimateTicTacToe.InitSegments | src/gameLogic/uTicTacToe.ts:65-71 | every one of the nine segments is a new 3-by-3, three-in-a-row game started by the given side |
| UltimateTicTacToe.NewUGame | src/gameLogic/uTicTacToe.ts:25-31 | a new game has nine new segments, a new meta game, no active segment, the starting side to move and no verdict |
| UltimateTicTacToe.Reset | src/gameLogic/uTicTacToe.ts:57-63 | a reset game is a new game started by the side that was to move |
| UltimateTicTacToe.IsDraw | src/gameLogic/uTicTacToe.ts:73-80 | the loop answers true iff every segment has a verdict |
| UltimateTicTacToe.MarkMeta | src/gameLogic/uTicTacToe.ts:89-91 | the meta game marks square (SX, SY) only for a segment won by a side, and leaves every other square alone |
| UltimateTicTacToe.Play | src/gameLogic/uTicTacToe.ts:87-100 | an accepted move plays the side to move in its segment only, changes the side to move, takes the meta verdict unless every segment is decided (draw), and routes the next segment only while there is no verdict |
| UltimateTicTacToe.Advance | src/gameLogic/uTicTacToe.ts:82-85 | a move outside the active segment, or onto an occupied square, changes nothing |
| UltimateTicTacToe.Move | src/gameLogic/uTicTacToe.ts:96-100 | as written: the next move is free iff meta square (X, Y) is marked |
| UltimateTicTacToe.MoveCorrected | src/gameLogic/uTicTacToe.ts:96-100 | corrected: the next move is free iff segment (X, Y) already has a verdict |
| UltimateTicTacToe.AcceptedMoveMarksSegment | src/gameLogic/uTicTacToe.ts:87 | in a segment without a verdict, exactly square (X, Y) receives the mover's mark |
| UltimateTicTacToe.MoveIntoDecidedSegment | src/gameLogic/uTicTacToe.ts:85-100 | a move into a decided segment is accepted when its square is null; no segment changes, the turn passes, a won segment is offered to the meta game again and a drawn one leaves it alone, and the next segment is routed from (X, Y) as usual |
| UltimateTicTacToe.NewGameReachable | src/gameLogic/uTicTacToe.ts:25-31 | a new game satisfies the reachability invariant, including the corrected rule's clause |
| UltimateTicTacToe.AdvancePreservesReachable | src/gameLogic/uTicTacToe.ts:82-101 | under either rule, a move keeps the meta board mirroring segment wins, undecided segments not full, and the verdict consistent |
| UltimateTicTacToe.MoveCorrectedPreservesReachable | src/gameLogic/uTicTacToe.ts:96-100 | the corrected rule never routes into a segment that already has a verdict |
| UltimateTicTacToe.WinnerStaysOrDraws | src/gameLogic/uTicTacToe.ts:93-94 | after a win, a later move the guards accept is still played (the segment gets the mark and the turn passes), and the verdict stays the win or turns into a draw |
| UltimateTicTacToe.AsWrittenRoutesIntoDrawnSegment | src/gameLogic/uTicTacToe.ts:98-100 | as written, a move at square (X, Y) routes the opponent into segment (X, Y) even when that segment is drawn |
| UltimateTicTacToe.AsWrittenDrawnActiveSegmentDeadlocks | src/gameLogic/uTicTacToe.ts:83-85 | with a drawn segment active, every move is refused, so the game can neither go on nor end |
| UltimateTicTacToe.PlayAllAsWritten | src/gameLogic/uTicTacToe.ts:82-101 | calls to `move` one after the other keep the game a 3-by-3 grid of 3-by-3 games |
| UltimateTicTacToe.AsWrittenDeadlockIsPermanent | src/gameLogic/uTicTacToe.ts:83-85 | once a drawn segment is active, no sequence of moves changes the game at all, so a game without a verdict never gets one |
| UltimateTicTacToe.CorrectedNeverStalls | src/gameLogic/uTicTacToe.ts:96-100 | with the corrected rule, some move is accepted whenever there is no verdict |
| UltimateTicTacToe.State | src/gameLogic/uTicTacToe.ts:33-55 | the state record shows each segment's board and verdict, and the active segment, side to move and verdict |
| UltimateTicTacToe.NewGameShowsInitialState | src/gameLogic/uTicTacToe.ts:33-55 | the state of a new game started by O agrees with the initial record of `initUTicTacToeState` in every field the getter produces; the getter has no score, and the model's zero-score filler makes the records equal |
| UltimateTicTacToe.AsWrittenOpeningMoveThrows | src/gameLogic/uTicTacToe.ts:87 | as written, the first move of every new game passes the guards and then throws in the segment's `move`, since the array `[X, Y]` has no properties `X` and `Y` |

## Left out

- `minimax`, `suggestTicTacToeMove` and the rest of `TicTacToeAI.ts` after line 106; `MinimaxTicTacToe.ts`, `MinimaxUTicTacToe.ts`, `UTicTacToeAI.ts`: move search and random choice, outside the rules.
- `chess.ts`, `ultimateTicTacToe.ts`, `src/ticTacToe.ts`, `sockets.ts`: the chess rules, a stub and transport types; none of them is part of this model.
- `checkForWinner()` without an argument (ticTacToe.ts:109-116): no caller in the modelled code uses it.
- The `state` getter of `TicTacToeGame` and `structuredClone`: a copy of fields the model already exposes as immutable values.
- UltimateTicTacToe.State: the getter's record has no score, so the model fills in zero scores.
- TicTacToe.NewGame: a negative size makes the source's array constructor throw; sizes are naturals here.
- TicTacToeAI.GetLineLength: a row index off the board throws in the source (`board[X][Y]` on undefined); that is a precondition here. An off-board column gives undefined, which is modelled as 0.
- TicTacToeAI.IsMoveViable: a row index off the board throws in the source; that is a precondition here.
- UltimateTicTacToe.Advance: its preconditions put all four indices on the 3-by-3 grid. In the source, an off-grid index is first met by the guard of line 84. When a segment is active and the call names another one, the call returns there and changes nothing, whatever the indices. For example, with segment [1, 1] active, `move(5, 0, 0, 0)` is a no-op. Otherwise line 85 is reached, and an off-grid SX, SY or X throws there. An off-grid Y alone does not throw: the guard reads undefined and lets the move through. The segment's own bounds check then ignores the mark, but the turn still passes, and line 100 routes the opponent to the off-grid segment [X, Y]. After that, every move naming another segment is refused at line 84, and a move naming [X, Y] throws at line 85, because `this.board[X][Y]` is undefined. The preconditions exclude this input, which the source accepts and which corrupts the game.
- The AI helpers take any `('X' | 'O' | null)[][]` in the source; here they require a square board, `board.length` rows of `board.length` squares. Every caller passes a game board, which is square; on a ragged board the source's loops read only `board.length` columns of each row.
- Coordinates: every coordinate (`X`, `Y` of a move, `SX`, `SY`, `X`, `Y` of an ultimate move, the `origin` of `getLineLength`, the square of `isMoveViable`) is an integer here; in the source they are JavaScript numbers. A fractional or NaN coordinate passes `isOutOfBounds` (ticTacToe.ts:60-66), since `0.5 < 0`, `0.5 >= size` and every comparison with NaN are false. `board[0.5]` is then undefined, and `board[X][Y] = side` (ticTacToe.ts:90) throws a TypeError, the same path `TicTacToe.MoveJs` derives for an array argument. The model does not cover non-integer numbers.
- Board squares may hold `'draw'` by the type of `TTicTacToeBoard`; no modelled code writes one, so boards hold X, O or null and segment verdicts live in a separate grid.
- TicTacToe.WinningSegments: its own contract states only when segments are pushed and that there are at most four. `TicTacToe.WinningSegmentsLineByLine` states which are pushed and in what order. `LineSegment` gives their end points.
- The constructor's defaults are modelled only all together (`TicTacToe.DefaultGame`) and for the side of `move` (`TicTacToe.MoveActive`); giving some arguments and defaulting the rest is `TicTacToe.NewGame` with those values.
- Clocks, randomness and I/O: none in the modelled code.

## Findings

| source | as written | input that shows it | evidently intended | confidence | as-written member | corrected member |
|---|---|---|---|---|---|---|
| src/gameLogic/uTicTacToe.ts:87 | `move([X, Y], side)` passes an array to a method that reads the properties `X` and `Y`; both are undefined, the bounds check lets them through, and `board[undefined][undefined] = side` throws a TypeError (the same holds for `[SX, SY]` at line 91) | the first move of any new game, e.g. `move(0, 0, 0, 0)` | `move({ X, Y }, side)` | high, not executed | UltimateTicTacToe.AsWrittenOpeningMoveThrows | UltimateTicTacToe.AcceptedMoveMarksSegment |
| src/gameLogic/uTicTacToe.ts:98-100 | under ArrayMoveMeansCoordinates (as written, the opening move already throws, see the row above), the next segment is free only when meta square (X, Y) is marked; a drawn segment is never marked there, so play can be routed into a full, drawn segment, after which every move is refused and the game never ends | a reachable state with segment (1, 1) drawn and no overall verdict, and a move at square (1, 1) of another segment | route freely when segment (X, Y) has any verdict, a draw included | high, not executed | UltimateTicTacToe.AsWrittenDeadlockIsPermanent | UltimateTicTacToe.CorrectedNeverStalls |
| src/gameLogic/ticTacToe.ts:104-108 | the full-board draw check runs before the lines are examined, so the move that completes a line and fills the board is a draw | 3-by-3, three in a row, board `O O . / X X O / O X X`, O plays (0, 2) | the completed line wins | medium, not executed | TicTacToe.AsWrittenFillingWinIsDraw | TicTacToe.MoveWinFirst |

=== FILE: grid.dfy ===
/** Board geometry shared by the game and by the evaluation helpers: bounds,
    the table of line directions, and runs of equal marks along a direction. */
module Grid {
  import opened Types

  /** A coordinate lies off an n-by-n board. */
  predicate OutOfBounds(p: Coord, n: int)
  {
    p.x < 0 || p.x >= n || p.y < 0 || p.y >= n
  }

  /** `b` has n rows of n squares. */
  predicate IsSquare(b: Board, n: int)
  {
    |b| == n && forall i :: 0 <= i < |b| ==> |b[i]| == n
  }

  /** Square p is on the board and holds `c`. */
  predicate Holds(b: Board, n: int, p: Coord, c: Cell)
    requires IsSquare(b, n)
  {
    !OutOfBounds(p, n) && b[p.x][p.y] == c
  }

  /** No square of the board is null. */
  predicate Full(b: Board, n: int)
    requires IsSquare(b, n)
  {
    forall i, j :: 0 <= i < n && 0 <= j < n ==> b[i][j] != Empty
  }

  /** Every square of the board is null. */
  predicate AllEmpty(b: Board, n: int)
    requires IsSquare(b, n)
  {
    forall i, j :: 0 <= i < n && 0 <= j < n ==> b[i][j] == Empty
  }

  /** `isOutOfBounds` on an n-by-n board: a coordinate passes the bounds
      check exactly when it names a square of the board, so every read
      behind the check is in range and every square can be reached. */
  lemma InBoundsIffSquare(b: Board, n: int, p: Coord)
    requires IsSquare(b, n)
    ensures !OutOfBounds(p, n) <==> (0 <= p.x < |b| && 0 <= p.y < |b[p.x]|)
  {
  }

  /** A board that is not full has a null square. */
  lemma NotFullHasEmptySquare(b: Board, n: int) returns (p: Coord)
    requires IsSquare(b, n)
    requires !Full(b, n)
    ensures Holds(b, n, p, Empty)
  {
    var i, j :| 0 <= i < n && 0 <= j < n && b[i][j] == Empty;
    p := Coord(i, j);
  }

  /** A direction vector `(dx, dy)`. */
  datatype Dir = Dir(dx: int, dy: int)

  /** A direction that moves one square: each component in -1..1, not both 0. */
  type Step = d: Dir | -1 <= d.dx <= 1 && -1 <= d.dy <= 1 && (d.dx != 0 || d.dy != 0)
    witness Dir(1, 0)

  function Reverse(d: Step): Step
  {
    Dir(-d.dx, -d.dy)
  }

  /** The four lines through a square, each as a pair of opposite directions:
      vertical, main diagonal, horizontal, anti-diagonal. The game and the
      evaluation helpers use the same table in the same order. */
  const Lines: seq<(Step, Step)> := [
    (Dir(1, 0), Dir(-1, 0)),
    (Dir(1, 1), Dir(-1, -1)),
    (Dir(0, 1), Dir(0, -1)),
    (Dir(-1, 1), Dir(1, -1))
  ]

  lemma LinesAreOpposite(i: int)
    requires 0 <= i < |Lines|
    ensures Lines[i].1 == Reverse(Lines[i].0)
  {
  }

  /** `k * e` for a unit component `e`, written without multiplication. */
  function Scale(k: int, e: int): int
  {
    if e == 1 then k else if e == -1 then -k else 0
  }

  /** The square k steps from p along d. */
  function Walk(p: Coord, d: Step, k: int): Coord
  {
    Coord(p.x + Scale(k, d.dx), p.y + Scale(k, d.dy))
  }

  function Next(p: Coord, d: Step): Coord
  {
    Walk(p, d, 1)
  }

  function Max(a: int, b: int): int
  {
    if a < b then b else a
  }

  function Clamp(z: int): nat
  {
    if z < 0 then 0 else z
  }

  /** Distance to the edge along one axis, for a unit component `e`. */
  function Dist(v: int, e: int, n: int): nat
  {
    if e == 1 then Clamp(n - v) else if e == -1 then Clamp(v + 1) else 0
  }

  /** Steps left before a walk from p along d leaves the board; it shrinks
      by one each time the walk moves onto a square of the board. */
  function Budget(p: Coord, d: Step, n: int): nat
  {
    if d.dx != 0 then Dist(p.x, d.dx, n) else Dist(p.y, d.dy, n)
  }

  /** Number of consecutive squares after p along d that hold `s`. */
  function Run(b: Board, n: int, p: Coord, d: Step, s: Side): nat
    requires IsSquare(b, n)
    decreases Budget(p, d, n)
  {
    var q := Next(p, d);
    if Holds(b, n, q, s) then 1 + Run(b, n, q, d, s) else 0
  }

  /** Declarative description of a run: the k squares after p along d hold
      `s`, and the square after them does not (or is off the board). */
  ghost predicate IsMaximalRun(b: Board, n: int, p: Coord, d: Step, s: Side, k: nat)
    requires IsSquare(b, n)
  {
    && (forall j :: 1 <= j <= k ==> Holds(b, n, Walk(p, d, j), s))
    && !Holds(b, n, Walk(p, d, k + 1), s)
  }

  /** `Run` counts exactly the maximal run. */
  lemma {:induction false} RunIsMaximal(b: Board, n: int, p: Coord, d: Step, s: Side)
    requires IsSquare(b, n)
    ensures IsMaximalRun(b, n, p, d, s, Run(b, n, p, d, s))
    decreases Budget(p, d, n)
  {
    var q := Next(p, d);
    if Holds(b, n, q, s) {
      RunIsMaximal(b, n, q, d, s);
      var k := Run(b, n, q, d, s);
      forall j | 1 <= j <= k + 1
        ensures Holds(b, n, Walk(p, d, j), s)
      {
        if j > 1 {
          assert Walk(p, d, j) == Walk(q, d, j - 1);
        }
      }
      assert Walk(p, d, k + 2) == Walk(q, d, k + 1);
    }
  }

  /** A maximal run has one length only: the one `Run` computes. */
  lemma MaximalRunUnique(b: Board, n: int, p: Coord, d: Step, s: Side, k: nat)
    requires IsSquare(b, n)
    requires IsMaximalRun(b, n, p, d, s, k)
    ensures k == Run(b, n, p, d, s)
  {
    var r := Run(b, n, p, d, s);
    RunIsMaximal(b, n, p, d, s);
    // Each run stops at the square the other run still covers.
    assert !Holds(b, n, Walk(p, d, k + 1), s);
    assert !Holds(b, n, Walk(p, d, r + 1), s);
  }

  /** A walk of n or more steps from a square of the board leaves the board. */
  lemma WalkLeavesBoard(p: Coord, d: Step, n: int, k: int)
    requires !OutOfBounds(p, n)
    requires k >= n
    ensures OutOfBounds(Walk(p, d, k), n)
  {
  }

  /** From a square of the board a run has at most n - 1 squares. */
  lemma RunBelowSize(b: Board, n: int, p: Coord, d: Step, s: Side)
    requires IsSquare(b, n)
    requires !OutOfBounds(p, n)
    ensures Run(b, n, p, d, s) <= n - 1
  {
    RunIsMaximal(b, n, p, d, s);
    WalkLeavesBoard(p, d, n, n);
  }
}

=== FILE: tictactoe.dfy ===
/** `TicTacToeGame`: k-in-a-row on a size-by-size board. A move is ignored off
    the board or once the game has a verdict; otherwise it writes the mark,
    hands the turn to the other side, and re-evaluates the verdict around the
    square just played. */
module TicTacToe {
  import opened Types
  import opened Grid

  /** The constructor's default arguments. */
  const DefaultSize: nat := 10
  const DefaultWinCondition: int := 5

  datatype Game = Game(
    board: Board,
    size: nat,
    winCondition: int,
    activePlayer: Side,
    winner: Verdict,
    winSegments: seq<Segment>)
  {
    /** What every game the class builds satisfies: the board is size by
        size, segments are recorded exactly when a side has won (at most
        four of them), and a draw is only declared on a full board. */
    predicate Valid()
    {
      && IsSquare(board, size)
      && (winner.Won? ==> 1 <= |winSegments| <= |Lines|)
      && (!winner.Won? ==> winSegments == [])
      && (winner == Draw ==> Full(board, size))
    }
  }

  /** The constructor `new TicTacToeGame(size, winCondition, startingSide)`.
      (A negative size makes the source's array constructor throw; sizes are
      naturals here.) */
  function NewGame(size: nat, winCondition: int, startingSide: Side): (g: Game)
    ensures g.Valid()
    ensures g.size == size && g.winCondition == winCondition
    ensures AllEmpty(g.board, size)
    ensures g.activePlayer == startingSide
    ensures g.winner == Pending && g.winSegments == []
  {
    Game(EmptyBoard(size), size, winCondition, startingSide, Pending, [])
  }

  /** `new TicTacToeGame()` with every argument defaulted: a 10-by-10 board,
      five in a row, O to move. */
  function DefaultGame(): (g: Game)
    ensures g.Valid()
    ensures g.size == 10 && g.winCondition == 5
    ensures AllEmpty(g.board, 10)
    ensures g.activePlayer == O && g.winner == Pending && g.winSegments == []
  {
    NewGame(DefaultSize, DefaultWinCondition, O)
  }

  /** `initNewBoard`: size rows of size nulls. */
  function EmptyBoard(size: nat): (b: Board)
    ensures IsSquare(b, size)
    ensures AllEmpty(b, size)
  {
    seq(size, _ => seq(size, _ => Empty))
  }

  /** `resetState`: a fresh board, no verdict and no segments; the side to
      move is the opposite of the side that was to move. */
  function Reset(g: Game): (r: Game)
    ensures r == NewGame(g.size, g.winCondition, Opponent(g.activePlayer))
  {
    g.(board := EmptyBoard(g.size), activePlayer := Opponent(g.activePlayer),
       winner := Pending, winSegments := [])
  }

  /** Two resets give a fresh game started by the side that was to move. */
  lemma ResetTwice(g: Game)
    ensures Reset(Reset(g)) == NewGame(g.size, g.winCondition, g.activePlayer)
  {
  }

  /** `checkDir`: walk from `start` along `d` while the next square is on
      the board and holds `s`, and return the last square reached. */
  function CheckDir(b: Board, n: int, d: Step, start: Coord, s: Side): (r: Coord)
    requires IsSquare(b, n)
    ensures r == Walk(start, d, Run(b, n, start, d, s))
    ensures Holds(b, n, start, s) ==> Holds(b, n, r, s)
    decreases Budget(start, d, n)
  {
    var q := Next(start, d);
    if OutOfBounds(q, n) then start
    else if b[q.x][q.y] != s then start
    else CheckDir(b, n, d, q, s)
  }

  /** `checkDir` returns the far end of the maximal run: for the k with the
      k squares after `start` holding `s` and the next one not, the result
      is k steps from `start`. */
  lemma CheckDirFindsRunEnd(b: Board, n: int, d: Step, start: Coord, s: Side, k: nat)
    requires IsSquare(b, n)
    requires IsMaximalRun(b, n, start, d, s, k)
    ensures CheckDir(b, n, d, start, s) == Walk(start, d, k)
  {
    MaximalRunUnique(b, n, start, d, s, k);
  }

  function Abs(v: int): nat
  {
    if v < 0 then -v else v
  }

  /** `sequenceLength`: squares covered by a segment of a line, counted along
      the longer axis. */
  function SequenceLength(seg: Segment): int
  {
    Max(Abs(seg.from.x - seg.to.x), Abs(seg.from.y - seg.to.y)) + 1
  }

  /** The segment `[[A, B], [C, D]]` the two walks of a line find from p. */
  function LineSegment(b: Board, n: int, p: Coord, s: Side, line: (Step, Step)): Segment
    requires IsSquare(b, n)
  {
    Segment(CheckDir(b, n, line.0, p, s), CheckDir(b, n, line.1, p, s))
  }

  /** Two walks from p in opposite directions, j and k steps long, end
      at the two ends of a segment of 1 + j + k squares. */
  lemma OppositeWalksSpan(p: Coord, d: Step, j: nat, k: nat)
    ensures SequenceLength(Segment(Walk(p, d, j), Walk(p, Reverse(d), k))) == 1 + j + k
  {
  }

  /** The segment a line of the table finds covers p plus the runs in both
      directions. */
  lemma SequenceLengthIsRunSum(b: Board, n: int, p: Coord, s: Side, i: int)
    requires IsSquare(b, n)
    requires 0 <= i < |Lines|
    ensures SequenceLength(LineSegment(b, n, p, s, Lines[i]))
         == 1 + Run(b, n, p, Lines[i].0, s) + Run(b, n, p, Lines[i].1, s)
  {
    var d := Lines[i].0;
    LinesAreOpposite(i);
    OppositeWalksSpan(p, d, Run(b, n, p, d, s), Run(b, n, p, Reverse(d), s));
  }

  /** The segments the four walks find from p, in table order. */
  function LineSegments(b: Board, n: int, p: Coord, s: Side): (r: seq<Segment>)
    requires IsSquare(b, n)
    ensures |r| == |Lines|
    ensures forall i :: 0 <= i < |Lines| ==> r[i] == LineSegment(b, n, p, s, Lines[i])
  {
    seq(|Lines|, i requires 0 <= i < |Lines| => LineSegment(b, n, p, s, Lines[i]))
  }

  /** The segments the `dirs.forEach` loop pushes: those at least
      winCondition long, each once, in order. */
  function LongSegments(segs: seq<Segment>, winCondition: int): (r: seq<Segment>)
    ensures |r| <= |segs|
    ensures forall k :: 0 <= k < |r| ==> r[k] in segs && SequenceLength(r[k]) >= winCondition
    ensures forall i :: 0 <= i < |segs| && SequenceLength(segs[i]) >= winCondition ==> segs[i] in r
  {
    if segs == [] then []
    else
      var rest := LongSegments(segs[1..], winCondition);
      assert forall i :: 1 <= i < |segs| ==> segs[i] == segs[1..][i - 1];
      if SequenceLength(segs[0]) >= winCondition then [segs[0]] + rest else rest
  }

  /** The loop pushes segment by segment: on a concatenation it keeps what
      it keeps of each part, in that order. With a single segment kept
      exactly when it is long, this fixes the result: every long segment
      once, in table order, and nothing else. */
  lemma {:induction false} LongSegmentsAppend(a: seq<Segment>, b: seq<Segment>, winCondition: int)
    ensures LongSegments(a + b, winCondition) == LongSegments(a, winCondition) + LongSegments(b, winCondition)
    decreases |a|
  {
    if a != [] {
      assert (a + b)[0] == a[0] && (a + b)[1..] == a[1..] + b;
      LongSegmentsAppend(a[1..], b, winCondition);
      if SequenceLength(a[0]) >= winCondition {
        assert [a[0]] + (LongSegments(a[1..], winCondition) + LongSegments(b, winCondition))
            == ([a[0]] + LongSegments(a[1..], winCondition)) + LongSegments(b, winCondition);
      }
    } else {
      assert a + b == b;
    }
  }

  /** What one line pushes: its segment when it is long enough, else nothing. */
  function Pushed(seg: Segment, winCondition: int): seq<Segment>
  {
    if SequenceLength(seg) >= winCondition then [seg] else []
  }

  /** One segment is kept exactly when it is long. */
  lemma LongSegmentsOfOne(seg: Segment, winCondition: int)
    ensures LongSegments([seg], winCondition) == Pushed(seg, winCondition)
  {
  }

  /** The segments pushed when the mark `s` at p is checked. */
  function WinningSegments(b: Board, n: int, p: Coord, s: Side, winCondition: int): (r: seq<Segment>)
    requires IsSquare(b, n)
    ensures |r| <= |Lines|
    ensures r != [] <==>
      (exists i :: 0 <= i < |Lines| && SequenceLength(LineSegment(b, n, p, s, Lines[i])) >= winCondition)
  {
    var segs := LineSegments(b, n, p, s);
    var r := LongSegments(segs, winCondition);
    assert r != [] ==> r[0] in segs;
    r
  }

  /** The `dirs.forEach` loop line by line: each line of the table pushes
      its segment once if it is long enough, in table order. */
  lemma WinningSegmentsLineByLine(b: Board, n: int, p: Coord, s: Side, winCondition: int)
    requires IsSquare(b, n)
    ensures var segs := LineSegments(b, n, p, s);
      WinningSegments(b, n, p, s, winCondition)
        == Pushed(segs[0], winCondition) + Pushed(segs[1], winCondition)
         + Pushed(segs[2], winCondition) + Pushed(segs[3], winCondition)
  {
    var segs := LineSegments(b, n, p, s);
    assert segs == [segs[0]] + [segs[1]] + [segs[2]] + [segs[3]];
    LongSegmentsAppend([segs[0]] + [segs[1]] + [segs[2]], [segs[3]], winCondition);
    LongSegmentsAppend([segs[0]] + [segs[1]], [segs[2]], winCondition);
    LongSegmentsAppend([segs[0]], [segs[1]], winCondition);
    LongSegmentsOfOne(segs[0], winCondition);
    LongSegmentsOfOne(segs[1], winCondition);
    LongSegmentsOfOne(segs[2], winCondition);
    LongSegmentsOfOne(segs[3], winCondition);
  }

  /** `checkForWinner(lastMove)`. A full board is a draw before any line is
      looked at. Otherwise the mark at the last square wins if a line
      through it is long enough, and each such line adds one segment. */
  function CheckForWinner(g: Game, last: Coord): (r: Game)
    requires IsSquare(g.board, g.size)
    ensures r.board == g.board && r.size == g.size
    ensures r.winCondition == g.winCondition && r.activePlayer == g.activePlayer
    ensures Full(g.board, g.size) ==> r.winner == Draw && r.winSegments == g.winSegments
    ensures !Full(g.board, g.size) && (OutOfBounds(last, g.size) || g.board[last.x][last.y] == Empty) ==> r == g
    ensures !Full(g.board, g.size) && !OutOfBounds(last, g.size) && g.board[last.x][last.y] != Empty ==>
      var segs := WinningSegments(g.board, g.size, last, g.board[last.x][last.y], g.winCondition);
      && r.winSegments == g.winSegments + segs
      && r.winner == (if segs == [] then g.winner else Won(g.board[last.x][last.y]))
  {
    if Full(g.board, g.size) then g.(winner := Draw)
    else if OutOfBounds(last, g.size) then g
    else if g.board[last.x][last.y] == Empty then g
    else
      var player: Side := g.board[last.x][last.y];
      var segs := WinningSegments(g.board, g.size, last, player, g.winCondition);
      if segs == [] then g
      else g.(winner := Won(player), winSegments := g.winSegments + segs)
  }

  /** The guard of `move`: on the board and no verdict yet ('draw' counts). */
  predicate Accepts(g: Game, x: int, y: int)
  {
    !OutOfBounds(Coord(x, y), g.size) && g.winner == Pending
  }

  /** `board[X][Y] = side`: the one square changes, whatever it held. */
  function Place(b: Board, n: int, x: int, y: int, side: Side): (r: Board)
    requires IsSquare(b, n)
    requires !OutOfBounds(Coord(x, y), n)
    ensures IsSquare(r, n)
    ensures r[x][y] == side
    ensures forall i, j :: 0 <= i < n && 0 <= j < n && (i != x || j != y) ==> r[i][j] == b[i][j]
  {
    b[x := b[x][y := side]]
  }

  /** `move({X, Y}, side)`. Ignored off the board or once there is a verdict.
      Otherwise the mark overwrites whatever the square held, the side to
      move becomes the opponent of the side that just played (not of the
      previous side to move), and a move that fills the board is a draw. */
  function Move(g: Game, x: int, y: int, side: Side): (r: Game)
    requires g.Valid()
    ensures r.Valid()
    ensures r.size == g.size && r.winCondition == g.winCondition
    ensures !Accepts(g, x, y) ==> r == g
    ensures Accepts(g, x, y) ==> r.board == Place(g.board, g.size, x, y, side)
    ensures Accepts(g, x, y) ==> r.activePlayer == Opponent(side)
    ensures Accepts(g, x, y) && Full(r.board, r.size) ==>
      r.winner == Draw && r.winSegments == g.winSegments
    ensures Accepts(g, x, y) && !Full(r.board, r.size) ==>
      r.winSegments == WinningSegments(r.board, r.size, Coord(x, y), side, g.winCondition)
  {
    if !Accepts(g, x, y) then g
    else
      var b := Place(g.board, g.size, x, y, side);
      CheckForWinner(g.(board := b, activePlayer := Opponent(side)), Coord(x, y))
  }

  /** `move({X, Y})` with the side left to its default, the side to move:
      an accepted move marks the square for the side to move and hands the
      turn to the other side, so the sides alternate. */
  function MoveActive(g: Game, x: int, y: int): (r: Game)
    requires g.Valid()
    ensures r.Valid() && r.size == g.size
    ensures !Accepts(g, x, y) ==> r == g
    ensures Accepts(g, x, y) ==>
      r.board[x][y] == g.activePlayer && r.activePlayer == Opponent(g.activePlayer)
  {
    Move(g, x, y, g.activePlayer)
  }

  /** An integer read from a property; reading a property the object does
      not have gives `undefined`. Non-integer numbers are not modelled. */
  datatype JsNum = Num(v: int) | Undefined

  /** The argument handed to `move`: an object `{X, Y}`, or an array
      `[X, Y]`, which has no properties named `X` and `Y`. */
  datatype MoveArg = Point(x: int, y: int) | Pair(first: int, second: int)

  /** `const { X, Y } = move`. */
  function PropX(m: MoveArg): JsNum
  {
    if m.Point? then Num(m.x) else Undefined
  }

  function PropY(m: MoveArg): JsNum
  {
    if m.Point? then Num(m.y) else Undefined
  }

  /** One half of `isOutOfBounds`, `A < 0 || A >= size`: a comparison with
      `undefined` is false, so `undefined` is never out of bounds. */
  predicate JsOutside(a: JsNum, size: int)
  {
    match a
    case Num(v) => v < 0 || v >= size
    case Undefined => false
  }

  /** `board[A]`: the row, or nothing (`undefined`) for an index without one. */
  function JsRow(b: Board, a: JsNum): Option<seq<Cell>>
  {
    match a
    case Num(v) => if 0 <= v < |b| then Some(b[v]) else None
    case Undefined => None
  }

  /** How a JavaScript call ends: it returns the game, or throws a TypeError. */
  datatype Completion = Returned(game: Game) | ThrewTypeError

  /** `move(move, side)` on the argument as JavaScript reads it: destructure
      X and Y, return early when either is out of bounds or there is a
      verdict, then `board[X][Y] = side`, which throws when `board[X]` is
      undefined; otherwise pass the turn and check for a winner. An object
      argument behaves as `Move`; an array argument throws exactly when
      the game has no verdict. */
  function MoveJs(g: Game, m: MoveArg, side: Side): (c: Completion)
    requires g.Valid()
    ensures m.Point? ==> c == Returned(Move(g, m.x, m.y, side))
    ensures m.Pair? ==> (c == ThrewTypeError <==> g.winner == Pending)
    ensures m.Pair? && g.winner != Pending ==> c == Returned(g)
  {
    var X, Y := PropX(m), PropY(m);
    if JsOutside(X, g.size) || JsOutside(Y, g.size) || g.winner != Pending then Returned(g)
    else match JsRow(g.board, X)
      case None => ThrewTypeError
      case Some(_) =>
        var b := Place(g.board, g.size, m.x, m.y, side);
        Returned(CheckForWinner(g.(board := b, activePlayer := Opponent(side)), Coord(m.x, m.y)))
  }

  /** `move` with the lines looked at before the board is checked for a
      draw: a move that completes a line wins even when it fills the board,
      and a full board is a draw only when the last move completed none. */
  function MoveWinFirst(g: Game, x: int, y: int, side: Side): (r: Game)
    requires g.Valid()
    ensures r.Valid()
    ensures r.size == g.size && r.winCondition == g.winCondition
    ensures !Accepts(g, x, y) ==> r == g
    ensures Accepts(g, x, y) ==>
      && r.board == Place(g.board, g.size, x, y, side)
      && r.activePlayer == Opponent(side)
      && (r.winner == Won(side) <==>
            (exists i :: 0 <= i < |Lines| &&
               SequenceLength(LineSegment(r.board, r.size, Coord(x, y), side, Lines[i])) >= g.winCondition))
      && (r.winner == Draw <==>
            Full(r.board, r.size) &&
            !(exists i :: 0 <= i < |Lines| &&
                SequenceLength(LineSegment(r.board, r.size, Coord(x, y), side, Lines[i])) >= g.winCondition))
  {
    if !Accepts(g, x, y) then g
    else
      var b := Place(g.board, g.size, x, y, side);
      var segs := WinningSegments(b, g.size, Coord(x, y), side, g.winCondition);
      var winner := if segs != [] then Won(side) else if Full(b, g.size) then Draw else Pending;
      Game(b, g.size, g.winCondition, Opponent(side), winner, g.winSegments + segs)
  }

  /** The two orders of checks agree on every move that leaves a null
      square; they can only differ on the move that fills the board. */
  lemma WinFirstAgreesUntilBoardFills(g: Game, x: int, y: int, side: Side)
    requires g.Valid()
    ensures !Full(Move(g, x, y, side).board, g.size) ==> MoveWinFirst(g, x, y, side) == Move(g, x, y, side)
  {
  }

  /** A 3-by-3 position with O to play its fifth mark at (0, 2):
        O O .
        X X O
        O X X
      The move fills the board and completes the top row. */
  const FillingPosition: Board := [[O, O, Empty], [X, X, O], [O, X, X]]

  /** The board after that move. */
  const FilledPosition: Board := [[O, O, O], [X, X, O], [O, X, X]]

  lemma FillingMoveFillsBoard()
    ensures Place(FillingPosition, 3, 0, 2, O) == FilledPosition
    ensures Full(FilledPosition, 3)
  {
    var b := Place(FillingPosition, 3, 0, 2, O);
    assert b[0] == FilledPosition[0];
    assert b[1] == FilledPosition[1] && b[2] == FilledPosition[2];
  }

  /** On a 3-by-3 board whose top row is all O, the row through its last
      square is three long: two marks to the left, none to the right. */
  lemma TopRowIsThreeLong(b: Board)
    requires IsSquare(b, 3)
    requires b[0][0] == O && b[0][1] == O && b[0][2] == O
    ensures SequenceLength(LineSegment(b, 3, Coord(0, 2), O, Lines[2])) >= 3
  {
    TopRowRunsLeft(b);
    TopRowEndsRight(b);
    SequenceLengthIsRunSum(b, 3, Coord(0, 2), O, 2);
  }

  lemma TopRowRunsLeft(b: Board)
    requires IsSquare(b, 3)
    requires b[0][0] == O && b[0][1] == O
    ensures Run(b, 3, Coord(0, 2), Lines[2].1, O) == 2
  {
    var p, left := Coord(0, 2), Lines[2].1;
    assert Walk(p, left, 1) == Coord(0, 1) && Walk(p, left, 2) == Coord(0, 0);
    assert OutOfBounds(Walk(p, left, 3), 3);
    assert IsMaximalRun(b, 3, p, left, O, 2);
    MaximalRunUnique(b, 3, p, left, O, 2);
  }

  lemma TopRowEndsRight(b: Board)
    requires IsSquare(b, 3)
    ensures Run(b, 3, Coord(0, 2), Lines[2].0, O) == 0
  {
  }

  /** As written, the move that completes a row while filling the board is
      recorded as a draw; with the line check first it is O's win. */
  lemma AsWrittenFillingWinIsDraw(g: Game)
    requires g == Game(FillingPosition, 3, 3, O, Pending, [])
    ensures g.Valid() && Accepts(g, 0, 2)
    ensures SequenceLength(LineSegment(Move(g, 0, 2, O).board, 3, Coord(0, 2), O, Lines[2])) >= 3
    ensures Move(g, 0, 2, O).winner == Draw
    ensures MoveWinFirst(g, 0, 2, O).winner == Won(O)
  {
    FillingMoveFillsBoard();
    var r := Move(g, 0, 2, O);
    assert r.board == FilledPosition;
    TopRowIsThreeLong(r.board);
    var w := MoveWinFirst(g, 0, 2, O);
    assert w.board == r.board && w.size == 3;
  }

  /** The verdict after an accepted move that leaves a null square: the
      mover wins iff one of the four lines through the square just played
      is at least winCondition long, and otherwise there is still none. */
  lemma MoveVerdict(g: Game, x: int, y: int, side: Side)
    requires g.Valid()
    requires Accepts(g, x, y)
    ensures var r := Move(g, x, y, side);
      !Full(r.board, r.size) ==>
        && (r.winner == Won(side) <==>
              (exists i :: 0 <= i < |Lines| &&
                 SequenceLength(LineSegment(r.board, r.size, Coord(x, y), side, Lines[i])) >= g.winCondition))
        && (r.winner != Won(side) ==> r.winner == Pending)
  {
  }

  /** The moves of a sequence, played one after the other. */
  function PlayAll(g: Game, moves: seq<(Coord, Side)>): (r: Game)
    requires g.Valid()
    ensures r.Valid()
    decreases |moves|
  {
    if moves == [] then g
    else PlayAll(Move(g, moves[0].0.x, moves[0].0.y, moves[0].1), moves[1..])
  }

  /** A game with a verdict is terminal: no sequence of moves changes it. */
  lemma {:induction false} FinishedGameIsTerminal(g: Game, moves: seq<(Coord, Side)>)
    requires g.Valid()
    requires g.winner != Pending
    ensures PlayAll(g, moves) == g
    decreases |moves|
  {
    if moves != [] {
      FinishedGameIsTerminal(g, moves[1..]);
    }
  }

  /** The verdict is decided by the runs through the square just played:
      the mover wins iff some line holds at least winCondition of its marks
      in a row through that square, unless the move filled the board. */
  lemma MoveWinsIffLongRun(g: Game, x: int, y: int, side: Side)
    requires g.Valid()
    requires Accepts(g, x, y)
    ensures var r := Move(g, x, y, side);
      !Full(r.board, r.size) ==>
        (r.winner == Won(side) <==>
           exists i :: 0 <= i < |Lines| &&
             1 + Run(r.board, r.size, Coord(x, y), Lines[i].0, side)
               + Run(r.board, r.size, Coord(x, y), Lines[i].1, side) >= g.winCondition)
  {
    var r := Move(g, x, y, side);
    forall i | 0 <= i < |Lines|
      ensures SequenceLength(LineSegment(r.board, r.size, Coord(x, y), side, Lines[i]))
           == 1 + Run(r.board, r.size, Coord(x, y), Lines[i].0, side)
                + Run(r.board, r.size, Coord(x, y), Lines[i].1, side)
    {
      SequenceLengthIsRunSum(r.board, r.size, Coord(x, y), side, i);
    }
  }

  /** `isDraw`: the nested loop over the board, stopping at the first null. */
  method IsDraw(g: Game) returns (r: bool)
    requires g.Valid()
    ensures r <==> Full(g.board, g.size)
  {
    var i := 0;
    while i < g.size
      invariant 0 <= i <= g.size
      invariant forall a, c :: 0 <= a < i && 0 <= c < g.size ==> g.board[a][c] != Empty
    {
      var j := 0;
      while j < g.size
        invariant 0 <= j <= g.size
        invariant forall c :: 0 <= c < j ==> g.board[i][c] != Empty
      {
        if g.board[i][j] == Empty {
          return false;
        }
        j := j + 1;
      }
      i := i + 1;
    }
    return true;
  }
}

=== FILE: tictactoe_ai.dfy ===
/** The pure evaluation helpers of the tic-tac-toe opponent: line lengths
    through a square, a static score of a position, emptiness of the board and
    which squares are worth trying. The board is square, `board.length` wide. */
module TicTacToeAI {
  import opened Types
  import opened Grid
  import TicTacToe

  /** A board the helpers accept: `board.length` rows of `board.length`. */
  predicate Square(b: Board)
  {
    IsSquare(b, |b|)
  }

  /** What `getLineLength` computes for one line through `origin`: 0 when
      the square is null (a column off the board reads as undefined, which
      counts as null), otherwise 1 plus the run of the same mark in each of
      the two directions. */
  function LineLength(b: Board, origin: Coord, line: (Step, Step)): nat
    requires Square(b)
  {
    if OutOfBounds(origin, |b|) || b[origin.x][origin.y] == Empty then 0
    else
      var side: Side := b[origin.x][origin.y];
      1 + Run(b, |b|, origin, line.0, side) + Run(b, |b|, origin, line.1, side)
  }

  /** The inner `for` loop of `getLineLength` for one direction: count the
      squares `i = 1 .. board.length - 1` steps away that hold `side`,
      stopping at the first that does not. */
  method CountRun(b: Board, origin: Coord, d: Step, side: Side) returns (k: nat)
    requires Square(b)
    requires !OutOfBounds(origin, |b|)
    ensures k == Run(b, |b|, origin, d, side)
    ensures k <= |b| - 1
  {
    var n := |b|;
    k := 0;
    var i := 1;
    while i < n
      invariant 1 <= i <= n
      invariant k == i - 1
      invariant forall j :: 1 <= j < i ==> Holds(b, n, Walk(origin, d, j), side)
    {
      var pos := Walk(origin, d, i);
      if OutOfBounds(pos, n) || b[pos.x][pos.y] != side {
        MaximalRunUnique(b, n, origin, d, side, k);
        return;
      }
      k := k + 1;
      i := i + 1;
    }
    WalkLeavesBoard(origin, d, n, n);
    MaximalRunUnique(b, n, origin, d, side, k);
  }

  /** `getLineLength(line, origin, board)`. A row off the board makes the
      source throw, so the row must be on the board. */
  method GetLineLength(line: (Step, Step), origin: Coord, b: Board) returns (length: nat)
    requires Square(b)
    requires 0 <= origin.x < |b|
    ensures length == LineLength(b, origin, line)
  {
    if OutOfBounds(origin, |b|) || b[origin.x][origin.y] == Empty {
      return 0;
    }
    var side: Side := b[origin.x][origin.y];
    length := 1;
    var k0 := CountRun(b, origin, line.0, side);
    length := length + k0;
    var k1 := CountRun(b, origin, line.1, side);
    length := length + k1;
  }

  /** A line through a square is 0 long exactly when the square is null or
      off the board; through a square of the board it is at most
      2 * board.length - 1 long. */
  lemma LineLengthBounds(b: Board, origin: Coord, line: (Step, Step))
    requires Square(b)
    ensures LineLength(b, origin, line) == 0 <==> OutOfBounds(origin, |b|) || b[origin.x][origin.y] == Empty
    ensures !OutOfBounds(origin, |b|) ==> LineLength(b, origin, line) <= 2 * |b| - 1
  {
    if !OutOfBounds(origin, |b|) && b[origin.x][origin.y] != Empty {
      var side: Side := b[origin.x][origin.y];
      RunBelowSize(b, |b|, origin, line.0, side);
      RunBelowSize(b, |b|, origin, line.1, side);
    }
  }

  /** The running maximum the `lines.forEach` loop of `getMaxLineLength`
      keeps after seeing `lengths`, starting from 0. */
  function Longest(lengths: seq<nat>): (m: nat)
    ensures forall i :: 0 <= i < |lengths| ==> lengths[i] <= m
    ensures m == 0 || exists i :: 0 <= i < |lengths| && m == lengths[i]
    decreases |lengths|
  {
    if lengths == [] then 0
    else
      var prefix := lengths[..|lengths| - 1];
      var m := Longest(prefix);
      assert forall i :: 0 <= i < |prefix| ==> prefix[i] == lengths[i];
      Max(m, lengths[|lengths| - 1])
  }

  /** The lengths of the four lines through a square, in table order. */
  function LineLengths(b: Board, origin: Coord): (r: seq<nat>)
    requires Square(b)
    ensures |r| == |Lines|
    ensures forall i :: 0 <= i < |Lines| ==> r[i] == LineLength(b, origin, Lines[i])
  {
    seq(|Lines|, i requires 0 <= i < |Lines| => LineLength(b, origin, Lines[i]))
  }

  /** The length of the longest line through a square. */
  function MaxLine(b: Board, origin: Coord): nat
    requires Square(b)
  {
    Longest(LineLengths(b, origin))
  }

  /** `getMaxLineLength(origin, board)`. */
  method GetMaxLineLength(origin: Coord, b: Board) returns (maxLength: nat)
    requires Square(b)
    requires 0 <= origin.x < |b|
    ensures maxLength == MaxLine(b, origin)
    ensures maxLength == 0 <==> OutOfBounds(origin, |b|) || b[origin.x][origin.y] == Empty
  {
    ghost var lengths := LineLengths(b, origin);
    maxLength := 0;
    var i := 0;
    while i < |Lines|
      invariant 0 <= i <= |Lines|
      invariant maxLength == Longest(lengths[..i])
    {
      var length := GetLineLength(Lines[i], origin, b);
      assert lengths[..i + 1][..i] == lengths[..i];
      maxLength := Max(maxLength, length);
      i := i + 1;
    }
    assert lengths[..|Lines|] == lengths;
    MaxLineZeroIffNull(b, origin);
  }

  /** The longest line through a square is 0 exactly when the square is
      null or off the board; an occupied square is a line of 1 by itself. */
  lemma MaxLineZeroIffNull(b: Board, origin: Coord)
    requires Square(b)
    ensures MaxLine(b, origin) == 0 <==> OutOfBounds(origin, |b|) || b[origin.x][origin.y] == Empty
  {
    if !OutOfBounds(origin, |b|) && b[origin.x][origin.y] != Empty {
      assert LineLengths(b, origin)[0] >= 1;
    }
  }

  /** The longest line through every square, as a grid. */
  function Strengths(b: Board): (g: seq<seq<nat>>)
    requires Square(b)
    ensures Fits(g, b)
    ensures forall i, j {:trigger MaxLine(b, Coord(i, j))} ::
      0 <= i < |b| && 0 <= j < |b| ==> g[i][j] == MaxLine(b, Coord(i, j))
  {
    seq(|b|, i requires 0 <= i < |b| => seq(|b|, j requires 0 <= j < |b| => MaxLine(b, Coord(i, j))))
  }

  /** `score` has one entry per square of `b`. */
  predicate Fits(score: seq<seq<nat>>, b: Board)
  {
    |score| == |b| && forall i :: 0 <= i < |b| ==> |score[i]| == |b|
  }

  /** Square (i, j) comes before (x, y) in row-major order. */
  predicate Before(i: int, j: int, x: int, y: int)
  {
    i < x || (i == x && j < y)
  }

  /** v is the largest `score` over the squares holding `s` that come before
      (x, y), or 0 when there are none. */
  ghost predicate BestBefore(b: Board, score: seq<seq<nat>>, s: Side, v: int, x: int, y: int)
    requires Square(b)
    requires Fits(score, b)
  {
    && 0 <= v
    && (forall i, j :: 0 <= i < |b| && 0 <= j < |b| && Before(i, j, x, y) && b[i][j] == s ==>
          score[i][j] <= v)
    && (v == 0 ||
          exists i, j :: 0 <= i < |b| && 0 <= j < |b| && Before(i, j, x, y) &&
            b[i][j] == s && score[i][j] == v)
  }

  /** v is the best line length of side s anywhere on the board (0 when s
      has no mark). */
  ghost predicate BestLine(b: Board, s: Side, v: int)
    requires Square(b)
  {
    BestBefore(b, Strengths(b), s, v, |b|, 0)
  }

  /** The best line of a side is one number. */
  lemma BestLineUnique(b: Board, s: Side, v: int, w: int)
    requires Square(b)
    requires BestLine(b, s, v) && BestLine(b, s, w)
    ensures v == w
  {
    if v != 0 {
      var i, j :| 0 <= i < |b| && 0 <= j < |b| && b[i][j] == s && Strengths(b)[i][j] == v;
      assert v <= w;
    }
    if w != 0 {
      var i, j :| 0 <= i < |b| && 0 <= j < |b| && b[i][j] == s && Strengths(b)[i][j] == w;
      assert w <= v;
    }
  }

  /** A side without marks has best line 0. */
  lemma BestLineOfAbsentSide(b: Board, s: Side, v: int)
    requires Square(b)
    requires AllEmpty(b, |b|)
    requires BestLine(b, s, v)
    ensures v == 0
  {
  }

  /** On an empty board both sides' best lines are 0, so the score is 0. */
  lemma ScoreOfEmptyBoard(b: Board, scoreO: int, scoreX: int)
    requires Square(b)
    requires BestLine(b, O, scoreO) && BestLine(b, X, scoreX)
    ensures AllEmpty(b, |b|) ==> scoreO - scoreX == 0
  {
    if AllEmpty(b, |b|) {
      BestLineOfAbsentSide(b, O, scoreO);
      BestLineOfAbsentSide(b, X, scoreX);
    }
  }

  /** One step of the scan: visiting (x, y) keeps v the best so far. */
  lemma BestBeforeStep(b: Board, score: seq<seq<nat>>, s: Side, v: int, x: int, y: int)
    requires Square(b)
    requires 0 <= x < |b| && 0 <= y < |b|
    requires Fits(score, b)
    requires BestBefore(b, score, s, v, x, y)
    ensures BestBefore(b, score, s, if b[x][y] == s then Max(v, score[x][y]) else v, x, y + 1)
  {
  }

  /** Finishing a row of the scan. */
  lemma BestBeforeNextRow(b: Board, score: seq<seq<nat>>, s: Side, v: int, x: int)
    requires Square(b)
    requires Fits(score, b)
    requires BestBefore(b, score, s, v, x, |b|)
    ensures BestBefore(b, score, s, v, x + 1, 0)
  {
  }

  /** The body of the `forEach` callback of `evaluateState`: fold the
      longest line through (x, y) into the score of the side that holds it. */
  method VisitSquare(b: Board, ghost scores: seq<seq<nat>>, x: int, y: int, scoreO: int, scoreX: int)
    returns (scoreO': int, scoreX': int)
    requires Square(b) && Fits(scores, b)
    requires 0 <= x < |b| && 0 <= y < |b|
    requires scores[x][y] == MaxLine(b, Coord(x, y))
    requires BestBefore(b, scores, O, scoreO, x, y) && BestBefore(b, scores, X, scoreX, x, y)
    ensures BestBefore(b, scores, O, scoreO', x, y + 1) && BestBefore(b, scores, X, scoreX', x, y + 1)
  {
    var maxLength := GetMaxLineLength(Coord(x, y), b);
    assert maxLength == scores[x][y];
    BestBeforeStep(b, scores, O, scoreO, x, y);
    BestBeforeStep(b, scores, X, scoreX, x, y);
    scoreO', scoreX' := scoreO, scoreX;
    if b[x][y] == O {
      scoreO' := Max(scoreO, maxLength);
    }
    if b[x][y] == X {
      scoreX' := Max(scoreX, maxLength);
    }
  }

  /** The inner `row.forEach` of `evaluateState`: visit row x left to right. */
  method VisitRow(b: Board, ghost scores: seq<seq<nat>>, x: int, scoreO: int, scoreX: int)
    returns (scoreO': int, scoreX': int)
    requires Square(b) && Fits(scores, b)
    requires 0 <= x < |b|
    requires forall y :: 0 <= y < |b| ==> scores[x][y] == MaxLine(b, Coord(x, y))
    requires BestBefore(b, scores, O, scoreO, x, 0) && BestBefore(b, scores, X, scoreX, x, 0)
    ensures BestBefore(b, scores, O, scoreO', x + 1, 0) && BestBefore(b, scores, X, scoreX', x + 1, 0)
  {
    scoreO', scoreX' := scoreO, scoreX;
    var y := 0;
    while y < |b|
      invariant 0 <= y <= |b|
      invariant BestBefore(b, scores, O, scoreO', x, y)
      invariant BestBefore(b, scores, X, scoreX', x, y)
    {
      scoreO', scoreX' := VisitSquare(b, scores, x, y, scoreO', scoreX');
      y := y + 1;
    }
    BestBeforeNextRow(b, scores, O, scoreO', x);
    BestBeforeNextRow(b, scores, X, scoreX', x);
  }

  /** `evaluateState(board)`: the best O line minus the best X line. */
  method EvaluateState(b: Board) returns (score: int)
    requires Square(b)
    ensures exists v, w :: BestLine(b, O, v) && BestLine(b, X, w) && score == v - w
    ensures AllEmpty(b, |b|) ==> score == 0
  {
    ghost var scores := Strengths(b);
    var scoreX := 0;
    var scoreO := 0;
    var x := 0;
    while x < |b|
      invariant 0 <= x <= |b|
      invariant BestBefore(b, scores, O, scoreO, x, 0)
      invariant BestBefore(b, scores, X, scoreX, x, 0)
    {
      scoreO, scoreX := VisitRow(b, scores, x, scoreO, scoreX);
      x := x + 1;
    }
    assert BestLine(b, O, scoreO) && BestLine(b, X, scoreX);
    ScoreOfEmptyBoard(b, scoreO, scoreX);
    score := scoreO - scoreX;
  }

  /** `isBoardEmpty(board)`: the nested loop, stopping at the first mark. */
  method IsBoardEmpty(b: Board) returns (r: bool)
    requires Square(b)
    ensures r <==> AllEmpty(b, |b|)
  {
    var i := 0;
    while i < |b|
      invariant 0 <= i <= |b|
      invariant forall a, c :: 0 <= a < i && 0 <= c < |b| ==> b[a][c] == Empty
    {
      var j := 0;
      while j < |b|
        invariant 0 <= j <= |b|
        invariant forall c :: 0 <= c < j ==> b[i][c] == Empty
      {
        if b[i][j] != Empty {
          return false;
        }
        j := j + 1;
      }
      i := i + 1;
    }
    return true;
  }

  /** `isPosNonEmpty`: on the board and holding a mark. */
  predicate Occupied(b: Board, p: Coord)
    requires Square(b)
  {
    !OutOfBounds(p, |b|) && b[p.x][p.y] != Empty
  }

  /** `Boolean(... && board[X][Y])`: a square counts as occupied exactly
      when it is on the board and holds one of the two marks. */
  lemma OccupiedIffMarked(b: Board, p: Coord)
    requires Square(b)
    ensures Occupied(b, p) <==> (Holds(b, |b|, p, X) || Holds(b, |b|, p, O))
  {
  }

  /** q is one of the eight squares around p. */
  predicate Adjacent(p: Coord, q: Coord)
  {
    q != p && -1 <= q.x - p.x <= 1 && -1 <= q.y - p.y <= 1
  }

  /** `isMoveViable(X, Y, board)`: the square is null and one of its eight
      neighbours holds a mark. A row off the board makes the source throw;
      a column off the board reads undefined, which is not null. */
  function IsMoveViable(x: int, y: int, b: Board): (r: bool)
    requires Square(b)
    requires 0 <= x < |b|
    ensures r <==> Holds(b, |b|, Coord(x, y), Empty) &&
                   exists q :: Adjacent(Coord(x, y), q) && Occupied(b, q)
    ensures AllEmpty(b, |b|) ==> !r
  {
    && 0 <= y < |b| && b[x][y] == Empty
    && (|| Occupied(b, Coord(x + 1, y))
        || Occupied(b, Coord(x + 1, y + 1))
        || Occupied(b, Coord(x, y + 1))
        || Occupied(b, Coord(x - 1, y + 1))
        || Occupied(b, Coord(x - 1, y))
        || Occupied(b, Coord(x - 1, y - 1))
        || Occupied(b, Coord(x, y - 1))
        || Occupied(b, Coord(x + 1, y - 1)))
  }

  /** For an occupied square, the line length the helpers compute equals
      the `max(|A - C|, |B - D|) + 1` the game computes from the two ends
      `checkDir` finds. */
  lemma LineLengthMatchesGame(b: Board, p: Coord, i: int)
    requires Square(b)
    requires 0 <= i < |Lines|
    requires Occupied(b, p)
    ensures LineLength(b, p, Lines[i])
         == TicTacToe.SequenceLength(TicTacToe.LineSegment(b, |b|, p, b[p.x][p.y], Lines[i]))
  {
    TicTacToe.SequenceLengthIsRunSum(b, |b|, p, b[p.x][p.y], i);
  }

  /** After an accepted move that leaves a null square, the mover has won
      iff the longest line through the square just played, as the helpers
      measure it, reaches winCondition. */
  lemma GameWinIffLongestLine(g: TicTacToe.Game, x: int, y: int, side: Side)
    requires g.Valid()
    requires TicTacToe.Accepts(g, x, y)
    ensures var r := TicTacToe.Move(g, x, y, side);
      !Full(r.board, r.size) ==>
        (r.winner == Won(side) <==> MaxLine(r.board, Coord(x, y)) >= g.winCondition)
  {
    var r := TicTacToe.Move(g, x, y, side);
    if !Full(r.board, r.size) {
      TicTacToe.MoveVerdict(g, x, y, side);
      var p := Coord(x, y);
      forall i | 0 <= i < |Lines|
        ensures LineLength(r.board, p, Lines[i])
             == TicTacToe.SequenceLength(TicTacToe.LineSegment(r.board, r.size, p, side, Lines[i]))
      {
        LineLengthMatchesGame(r.board, p, i);
      }
    }
  }
}

=== FILE: types.dfy ===
/** The value types shared by the tic-tac-toe games, their snapshots and the
    evaluation helpers: marks, board squares, game verdicts and coordinates. */
module Types {

  /** One square of a tic-tac-toe board: a mark of either player, or null. */
  datatype Cell = Empty | X | O

  /** A player, that is, a square value that is a mark. */
  type Side = c: Cell | c != Empty witness X

  /** The player who moves after `s` has moved. */
  function Opponent(s: Side): (r: Side)
    ensures r != s
  {
    if s == O then X else O
  }

  /** The `winner` field of a game: null while the game runs, a side once a
      line is complete, or 'draw'. */
  datatype Verdict = Pending | Won(side: Side) | Draw

  /** A board is a sequence of rows; `b[x][y]` is row x, column y. */
  type Board = seq<seq<Cell>>

  /** An `[X, Y]` coordinate pair. Coordinates are unbounded integers, since
      a caller may pass any integer, on the board or not. Non-integer numbers
      are not modelled. */
  datatype Coord = Coord(x: int, y: int)

  /** A recorded winning segment `[[A, B], [C, D]]`: the two ends of a line. */
  datatype Segment = Segment(from: Coord, to: Coord)

  datatype Option<T> = None | Some(value: T)
}

=== FILE: utictactoe.dfy ===
/** `UTicTacToeGame`: ultimate tic-tac-toe. Nine 3-by-3, three-in-a-row
    segment games sit on a 3-by-3 grid, and a tenth game of the same shape,
    the meta game, records which side won which segment. A move names a
    segment (SX, SY) and a square (X, Y) in it; the square also names the
    segment the opponent must play in next.

    Named assumption, ArrayMoveMeansCoordinates: the source passes arrays to
    `TicTacToeGame.move` twice, `[X, Y]` when a segment plays the square and
    `[SX, SY]` when the meta game records a won segment. That method reads
    the properties `X` and `Y` of its argument, which an array does not
    have. At both call sites the model places the mark at the coordinates,
    which is what the calls evidently intend: `Play` uses `TicTacToe.Move`
    for the segment and `MarkMeta` uses it for the meta game.
    `TicTacToe.MoveJs` models the call on an array as written. */
module UltimateTicTacToe {
  import opened Types
  import opened Grid
  import TicTacToe
  import Util

  /** How the segment for the next move is chosen. `MetaMarked` is the rule
      as written: any segment unless meta square (X, Y) is marked.
      `SegmentDecided` is the corrected rule: any segment unless segment
      (X, Y) already has a verdict, a draw included. */
  datatype Routing = MetaMarked | SegmentDecided

  datatype UGame = UGame(
    segments: seq<seq<TicTacToe.Game>>,
    meta: TicTacToe.Game,
    activeSegment: Option<Coord>,
    activePlayer: Side,
    winner: Verdict)

  /** A game the class builds: 3-by-3, three in a row. */
  predicate IsSmallGame(g: TicTacToe.Game)
  {
    g.Valid() && g.size == 3 && g.winCondition == 3
  }

  predicate OnGrid(x: int, y: int)
  {
    0 <= x < 3 && 0 <= y < 3
  }

  /** A 3-by-3 grid of small games. */
  predicate SegmentGrid(segs: seq<seq<TicTacToe.Game>>)
  {
    && |segs| == 3
    && (forall i :: 0 <= i < 3 ==> |segs[i]| == 3)
    && (forall i, j :: 0 <= i < 3 && 0 <= j < 3 ==> IsSmallGame(segs[i][j]))
  }

  /** The shape of every game the class builds. */
  predicate Valid(u: UGame)
  {
    && SegmentGrid(u.segments)
    && IsSmallGame(u.meta)
    && (u.activeSegment.Some? ==> OnGrid(u.activeSegment.value.x, u.activeSegment.value.y))
  }

  /** `initBoard(startingSide)`: nine fresh segment games. */
  function InitSegments(startingSide: Side): (segs: seq<seq<TicTacToe.Game>>)
    ensures |segs| == 3 && forall i :: 0 <= i < 3 ==> |segs[i]| == 3
    ensures forall i, j :: 0 <= i < 3 && 0 <= j < 3 ==> segs[i][j] == TicTacToe.NewGame(3, 3, startingSide)
  {
    seq(3, _ => seq(3, _ => TicTacToe.NewGame(3, 3, startingSide)))
  }

  /** The constructor `new UTicTacToeGame(startingSide)`. */
  function NewUGame(startingSide: Side): (u: UGame)
    ensures Valid(u)
    ensures forall i, j :: 0 <= i < 3 && 0 <= j < 3 ==> u.segments[i][j] == TicTacToe.NewGame(3, 3, startingSide)
    ensures u.meta == TicTacToe.NewGame(3, 3, startingSide)
    ensures u.activeSegment == None && u.activePlayer == startingSide && u.winner == Pending
  {
    UGame(InitSegments(startingSide), TicTacToe.NewGame(3, 3, startingSide), None, startingSide, Pending)
  }

  /** `resetState()`: a fresh game started by the side that was to move. */
  function Reset(u: UGame): (r: UGame)
    ensures r == NewUGame(u.activePlayer)
  {
    UGame(InitSegments(u.activePlayer), TicTacToe.NewGame(3, 3, u.activePlayer), None, u.activePlayer, Pending)
  }

  /** Every segment has a verdict: the condition `isDraw()` loops over. */
  predicate AllDecided(segs: seq<seq<TicTacToe.Game>>)
    requires |segs| == 3 && forall i :: 0 <= i < 3 ==> |segs[i]| == 3
  {
    forall i, j :: 0 <= i < 3 && 0 <= j < 3 ==> segs[i][j].winner != Pending
  }

  /** `isDraw()`: the nested loop, stopping at the first undecided segment. */
  method IsDraw(u: UGame) returns (r: bool)
    requires Valid(u)
    ensures r <==> AllDecided(u.segments)
  {
    var i := 0;
    while i < 3
      invariant 0 <= i <= 3
      invariant forall a, c :: 0 <= a < i && 0 <= c < 3 ==> u.segments[a][c].winner != Pending
    {
      var j := 0;
      while j < 3
        invariant 0 <= j <= 3
        invariant forall c :: 0 <= c < j ==> u.segments[i][c].winner != Pending
      {
        if u.segments[i][j].winner == Pending {
          return false;
        }
        j := j + 1;
      }
      i := i + 1;
    }
    return true;
  }

  /** The guards of `move`: the segment is the required one (if any) and the
      square in it is null. */
  predicate Accepted(u: UGame, sx: int, sy: int, x: int, y: int)
    requires Valid(u)
    requires OnGrid(sx, sy) && OnGrid(x, y)
  {
    && (u.activeSegment.None? || u.activeSegment.value == Coord(sx, sy))
    && u.segments[sx][sy].board[x][y] == Empty
  }

  /** The segment the next move must go to, under each rule. */
  function Route(rule: Routing, segs: seq<seq<TicTacToe.Game>>, meta: TicTacToe.Game, x: int, y: int): Option<Coord>
    requires |segs| == 3 && forall i :: 0 <= i < 3 ==> |segs[i]| == 3
    requires IsSmallGame(meta)
    requires OnGrid(x, y)
  {
    match rule
    case MetaMarked => if meta.board[x][y] != Empty then None else Some(Coord(x, y))
    case SegmentDecided => if segs[x][y].winner != Pending then None else Some(Coord(x, y))
  }

  /** The grid of segments with segment (SX, SY) replaced. */
  function PutSegment(segs: seq<seq<TicTacToe.Game>>, sx: int, sy: int, seg: TicTacToe.Game): (r: seq<seq<TicTacToe.Game>>)
    requires SegmentGrid(segs)
    requires OnGrid(sx, sy) && IsSmallGame(seg)
    ensures SegmentGrid(r)
    ensures r[sx][sy] == seg
    ensures forall i, j :: 0 <= i < 3 && 0 <= j < 3 && (i != sx || j != sy) ==> r[i][j] == segs[i][j]
  {
    segs[sx := segs[sx][sy := seg]]
  }

  /** The meta game after a segment reaches `seg`'s verdict: a segment won
      by a side marks square (SX, SY) for that side; a drawn or undecided
      one leaves the meta game alone. The source hands `[SX, SY]` to the
      meta game; under ArrayMoveMeansCoordinates this is the move at
      (SX, SY). */
  function MarkMeta(meta: TicTacToe.Game, sx: int, sy: int, seg: TicTacToe.Game): (r: TicTacToe.Game)
    requires IsSmallGame(meta) && OnGrid(sx, sy)
    ensures IsSmallGame(r)
    ensures !seg.winner.Won? ==> r == meta
    ensures seg.winner.Won? && TicTacToe.Accepts(meta, sx, sy) ==>
      r.board[sx][sy] == seg.winner.side
    ensures forall i, j :: 0 <= i < 3 && 0 <= j < 3 && (i != sx || j != sy || !TicTacToe.Accepts(meta, sx, sy)) ==>
      r.board[i][j] == meta.board[i][j]
  {
    if seg.winner.Won? then TicTacToe.Move(meta, sx, sy, seg.winner.side) else meta
  }

  /** An accepted `move(SX, SY, X, Y)` under a routing rule. The segment
      game plays the side to move at (X, Y) (a no-op there if that segment
      already has a verdict) and the side to move changes. The verdict is
      the meta game's, overridden by a draw once every segment has one.
      While there is no verdict the next segment is routed; once there is
      one, the active segment is left as it was. */
  function Play(u: UGame, sx: int, sy: int, x: int, y: int, rule: Routing): (r: UGame)
    requires Valid(u)
    requires OnGrid(sx, sy) && OnGrid(x, y)
    requires Accepted(u, sx, sy, x, y)
    ensures Valid(r)
    ensures r.activePlayer == Opponent(u.activePlayer)
    ensures r.segments[sx][sy] == TicTacToe.Move(u.segments[sx][sy], x, y, u.activePlayer)
    ensures forall i, j :: 0 <= i < 3 && 0 <= j < 3 && (i != sx || j != sy) ==> r.segments[i][j] == u.segments[i][j]
    ensures r.meta == MarkMeta(u.meta, sx, sy, r.segments[sx][sy])
    ensures r.winner == (if AllDecided(r.segments) then Draw else r.meta.winner)
    ensures r.winner != Pending ==> r.activeSegment == u.activeSegment
    ensures r.winner == Pending ==> r.activeSegment == Route(rule, r.segments, r.meta, x, y)
  {
    var seg := TicTacToe.Move(u.segments[sx][sy], x, y, u.activePlayer);
    var segs := PutSegment(u.segments, sx, sy, seg);
    var meta := MarkMeta(u.meta, sx, sy, seg);
    var winner := if AllDecided(segs) then Draw else meta.winner;
    var active := if winner != Pending then u.activeSegment else Route(rule, segs, meta, x, y);
    UGame(segs, meta, active, Opponent(u.activePlayer), winner)
  }

  /** `move(SX, SY, X, Y)` under a routing rule: a move the guards refuse
      changes nothing. */
  function Advance(u: UGame, sx: int, sy: int, x: int, y: int, rule: Routing): (r: UGame)
    requires Valid(u)
    requires OnGrid(sx, sy) && OnGrid(x, y)
    ensures Valid(r)
    ensures !Accepted(u, sx, sy, x, y) ==> r == u
    ensures Accepted(u, sx, sy, x, y) ==> r == Play(u, sx, sy, x, y, rule)
  {
    if u.activeSegment.Some? && u.activeSegment.value != Coord(sx, sy) then u
    else if u.segments[sx][sy].board[x][y] != Empty then u
    else Play(u, sx, sy, x, y, rule)
  }

  /** `move(SX, SY, X, Y)` as written. */
  function Move(u: UGame, sx: int, sy: int, x: int, y: int): (r: UGame)
    requires Valid(u)
    requires OnGrid(sx, sy) && OnGrid(x, y)
    ensures Valid(r)
    ensures Accepted(u, sx, sy, x, y) && r.winner == Pending ==>
      (r.activeSegment == None <==> r.meta.board[x][y] != Empty)
  {
    Advance(u, sx, sy, x, y, MetaMarked)
  }

  /** `move(SX, SY, X, Y)` with the corrected routing rule. */
  function MoveCorrected(u: UGame, sx: int, sy: int, x: int, y: int): (r: UGame)
    requires Valid(u)
    requires OnGrid(sx, sy) && OnGrid(x, y)
    ensures Valid(r)
    ensures Accepted(u, sx, sy, x, y) && r.winner == Pending ==>
      (r.activeSegment == None <==> r.segments[x][y].winner != Pending)
  {
    Advance(u, sx, sy, x, y, SegmentDecided)
  }

  /** A segment with no verdict receives the mark of the side to move at
      (X, Y), and nothing else in it changes. */
  lemma AcceptedMoveMarksSegment(u: UGame, sx: int, sy: int, x: int, y: int, rule: Routing)
    requires Valid(u)
    requires OnGrid(sx, sy) && OnGrid(x, y)
    requires Accepted(u, sx, sy, x, y)
    requires u.segments[sx][sy].winner == Pending
    ensures var r := Advance(u, sx, sy, x, y, rule);
      && r.segments[sx][sy].board[x][y] == u.activePlayer
      && forall i, j :: 0 <= i < 3 && 0 <= j < 3 && (i != x || j != y) ==>
           r.segments[sx][sy].board[i][j] == u.segments[sx][sy].board[i][j]
  {
  }

  /** A move into a segment that already has a verdict is accepted when its
      square is null. No segment changes, but the turn passes, the won
      segment is offered to the meta game again (a drawn one is not), and
      the next segment is routed from (X, Y) as after any accepted move. */
  lemma MoveIntoDecidedSegment(u: UGame, sx: int, sy: int, x: int, y: int, rule: Routing)
    requires Valid(u)
    requires OnGrid(sx, sy) && OnGrid(x, y)
    requires Accepted(u, sx, sy, x, y)
    requires u.segments[sx][sy].winner != Pending
    ensures var r := Advance(u, sx, sy, x, y, rule);
      && r.segments == u.segments
      && r.activePlayer == Opponent(u.activePlayer)
      && r.meta == MarkMeta(u.meta, sx, sy, u.segments[sx][sy])
      && (u.segments[sx][sy].winner == Draw ==> r.meta == u.meta)
      && (r.winner == Pending ==> r.activeSegment == Route(rule, u.segments, r.meta, x, y))
  {
    var r := Advance(u, sx, sy, x, y, rule);
    assert r.segments[sx][sy] == u.segments[sx][sy];
    assert r.segments[sx] == u.segments[sx];
  }

  /** The meta board marks a segment only with the side that won it, so a
      drawn segment is never marked. */
  predicate MetaMirrorsSegments(u: UGame)
    requires Valid(u)
  {
    forall i, j :: 0 <= i < 3 && 0 <= j < 3 && u.meta.board[i][j] != Empty ==>
      u.segments[i][j].winner == Won(u.meta.board[i][j])
  }

  /** What holds of every state reachable from a new game, under either rule:
      the meta board mirrors the segments, a segment without a verdict has a
      null square, and the verdict is the meta game's unless every segment
      is decided. */
  predicate Reachable(u: UGame)
  {
    && Valid(u)
    && MetaMirrorsSegments(u)
    && (forall i, j :: 0 <= i < 3 && 0 <= j < 3 && u.segments[i][j].winner == Pending ==>
          !Full(u.segments[i][j].board, 3))
    && u.winner == (if AllDecided(u.segments) then Draw else u.meta.winner)
  }

  /** Under the corrected rule, additionally: while there is no verdict, the
      active segment has none either. */
  predicate ReachableCorrected(u: UGame)
  {
    && Reachable(u)
    && (u.winner == Pending && u.activeSegment.Some? ==>
          u.segments[u.activeSegment.value.x][u.activeSegment.value.y].winner == Pending)
  }

  lemma NewGameReachable(startingSide: Side)
    ensures ReachableCorrected(NewUGame(startingSide))
  {
    var u := NewUGame(startingSide);
    forall i, j | 0 <= i < 3 && 0 <= j < 3
      ensures !Full(u.segments[i][j].board, 3)
    {
      assert u.segments[i][j].board[0][0] == Empty;
    }
    assert u.segments[0][0].winner == Pending;
  }

  /** A move keeps the state reachable, under either rule. */
  lemma AdvancePreservesReachable(u: UGame, sx: int, sy: int, x: int, y: int, rule: Routing)
    requires Reachable(u)
    requires OnGrid(sx, sy) && OnGrid(x, y)
    ensures Reachable(Advance(u, sx, sy, x, y, rule))
  {
  }

  /** The corrected rule also keeps its extra clause. */
  lemma MoveCorrectedPreservesReachable(u: UGame, sx: int, sy: int, x: int, y: int)
    requires ReachableCorrected(u)
    requires OnGrid(sx, sy) && OnGrid(x, y)
    ensures ReachableCorrected(MoveCorrected(u, sx, sy, x, y))
  {
    AdvancePreservesReachable(u, sx, sy, x, y, SegmentDecided);
  }

  /** Once a side has won, further moves are still played: the method has
      no verdict guard, so a move the guards accept marks its segment and
      passes the turn. The verdict can then only stay or turn into a draw
      when the last segment is decided. */
  lemma WinnerStaysOrDraws(u: UGame, sx: int, sy: int, x: int, y: int, rule: Routing)
    requires Reachable(u)
    requires OnGrid(sx, sy) && OnGrid(x, y)
    requires u.winner.Won?
    ensures var r := Advance(u, sx, sy, x, y, rule);
      r.winner == u.winner || r.winner == Draw
    ensures Accepted(u, sx, sy, x, y) ==>
      var r := Advance(u, sx, sy, x, y, rule);
      && r.activePlayer == Opponent(u.activePlayer)
      && r.segments[sx][sy] == TicTacToe.Move(u.segments[sx][sy], x, y, u.activePlayer)
  {
  }

  /** Finding, as written: a drawn segment is full and never marked on the
      meta board, so a move at square (X, Y) that does not end the game
      sends the opponent into drawn segment (X, Y). */
  lemma AsWrittenRoutesIntoDrawnSegment(u: UGame, sx: int, sy: int, x: int, y: int)
    requires Reachable(u)
    requires OnGrid(sx, sy) && OnGrid(x, y)
    requires Accepted(u, sx, sy, x, y)
    requires u.segments[x][y].winner == Draw
    ensures var r := Move(u, sx, sy, x, y);
      r.winner == Pending ==>
        r.activeSegment == Some(Coord(x, y)) && r.segments[x][y].winner == Draw
  {
  }

  /** Finding, as written: from there no move is ever accepted again, so the
      game can neither continue nor end. */
  lemma AsWrittenDrawnActiveSegmentDeadlocks(u: UGame, sx: int, sy: int, x: int, y: int)
    requires Reachable(u)
    requires OnGrid(sx, sy) && OnGrid(x, y)
    requires u.activeSegment.Some?
    requires u.segments[u.activeSegment.value.x][u.activeSegment.value.y].winner == Draw
    ensures !Accepted(u, sx, sy, x, y)
    ensures Move(u, sx, sy, x, y) == u
  {
  }

  /** A call `move(SX, SY, X, Y)`. */
  datatype UMove = UMove(sx: int, sy: int, x: int, y: int)

  predicate OnBoard(m: UMove)
  {
    OnGrid(m.sx, m.sy) && OnGrid(m.x, m.y)
  }

  /** A sequence of calls to `move` as written, one after the other. */
  function PlayAllAsWritten(u: UGame, moves: seq<UMove>): (r: UGame)
    requires Valid(u)
    requires forall m :: m in moves ==> OnBoard(m)
    ensures Valid(r)
    decreases |moves|
  {
    if moves == [] then u
    else
      var m := moves[0];
      assert m in moves;
      assert OnBoard(m);
      PlayAllAsWritten(Move(u, m.sx, m.sy, m.x, m.y), moves[1..])
  }

  /** Finding, as written: the deadlock is permanent. Whatever moves follow,
      the game stays exactly as it is, without a verdict if it had none. */
  lemma {:induction false} AsWrittenDeadlockIsPermanent(u: UGame, moves: seq<UMove>)
    requires Reachable(u)
    requires u.activeSegment.Some?
    requires u.segments[u.activeSegment.value.x][u.activeSegment.value.y].winner == Draw
    requires forall m :: m in moves ==> OnBoard(m)
    ensures PlayAllAsWritten(u, moves) == u
    decreases |moves|
  {
    if moves != [] {
      var m := moves[0];
      assert m in moves;
      AsWrittenDrawnActiveSegmentDeadlocks(u, m.sx, m.sy, m.x, m.y);
      AsWrittenDeadlockIsPermanent(u, moves[1..]);
    }
  }

  /** Corrected rule: while there is no verdict, some move is accepted. */
  lemma CorrectedNeverStalls(u: UGame) returns (sx: int, sy: int, x: int, y: int)
    requires ReachableCorrected(u)
    requires u.winner == Pending
    ensures OnGrid(sx, sy) && OnGrid(x, y)
    ensures Accepted(u, sx, sy, x, y)
    ensures MoveCorrected(u, sx, sy, x, y).activePlayer != u.activePlayer
  {
    if u.activeSegment.Some? {
      sx, sy := u.activeSegment.value.x, u.activeSegment.value.y;
    } else {
      sx, sy :| 0 <= sx < 3 && 0 <= sy < 3 && u.segments[sx][sy].winner == Pending;
    }
    assert 0 <= sx < 3 && 0 <= sy < 3 && u.segments[sx][sy].winner == Pending;
    var p := NotFullHasEmptySquare(u.segments[sx][sy].board, 3);
    x, y := p.x, p.y;
  }

  /** The `state` getter: each segment's board and verdict, plus the game's
      own fields. */
  function State(u: UGame): (st: Util.UTicTacToeState)
    requires Valid(u)
    ensures |st.board| == 3 && |st.segmentBoard| == 3
    ensures forall i :: 0 <= i < 3 ==> |st.board[i]| == 3 && |st.segmentBoard[i]| == 3
    ensures forall i, j :: 0 <= i < 3 && 0 <= j < 3 ==>
      st.board[i][j] == u.segments[i][j].board && st.segmentBoard[i][j] == u.segments[i][j].winner
    ensures st.activeSegment == u.activeSegment && st.activePlayer == u.activePlayer
    ensures st.winner == u.winner
  {
    Util.UTicTacToeState(
      seq(3, i requires 0 <= i < 3 => seq(3, j requires 0 <= j < 3 => u.segments[i][j].board)),
      seq(3, i requires 0 <= i < 3 => seq(3, j requires 0 <= j < 3 => u.segments[i][j].winner)),
      u.activeSegment, u.activePlayer, Util.NoScore, u.winner)
  }

  /** A new game started by O shows exactly the initial state record. */
  lemma NewGameShowsInitialState()
    ensures State(NewUGame(O)) == Util.InitUTicTacToeState()
  {
    var st := State(NewUGame(O));
    var init := Util.InitUTicTacToeState();
    forall i, j | 0 <= i < 3 && 0 <= j < 3
      ensures st.board[i][j] == init.board[i][j]
    {
      Util.NewGameBoardIsInitBoard(3, 3, O);
    }
    assert forall i | 0 <= i < 3 :: st.board[i] == init.board[i];
    assert forall i | 0 <= i < 3 :: st.segmentBoard[i] == init.segmentBoard[i];
  }

  /** Finding, as written: `segment.move([X, Y], side)` hands an array to
      the segment game. The opening move of every new game passes both
      guards of `move(SX, SY, X, Y)` and then throws in that call. */
  lemma AsWrittenOpeningMoveThrows(startingSide: Side, sx: int, sy: int, x: int, y: int)
    requires OnGrid(sx, sy) && OnGrid(x, y)
    ensures var u := NewUGame(startingSide);
      && Accepted(u, sx, sy, x, y)
      && TicTacToe.MoveJs(u.segments[sx][sy], TicTacToe.Pair(x, y), u.activePlayer) == TicTacToe.ThrewTypeError
  {
  }
}

=== FILE: util.dfy ===
/** The initial boards and state records the clients start from. */
module Util {
  import opened Types
  import opened Grid
  import TicTacToe

  /** The per-result tally of a state record. */
  datatype Score = Score(x: nat, o: nat, draw: nat)

  const NoScore: Score := Score(0, 0, 0)

  /** The tic-tac-toe state record: board, win condition, side to move,
      score and verdict. */
  datatype TicTacToeState = TicTacToeState(
    board: Board,
    winCondition: int,
    activePlayer: Side,
    score: Score,
    winner: Verdict)

  /** The ultimate tic-tac-toe state record: the nine segment boards, the
      verdict of each segment, the segment the next move must go to (null:
      any), the side to move, score and verdict. */
  datatype UTicTacToeState = UTicTacToeState(
    board: seq<seq<Board>>,
    segmentBoard: seq<seq<Verdict>>,
    activeSegment: Option<Coord>,
    activePlayer: Side,
    score: Score,
    winner: Verdict)

  /** The loop of `initTicTacToeBoard`: `size` rows of `size` nulls, where
      `blank` is the null of the square type (an empty square of a board, or
      an undecided entry of a segment board). A negative size runs no
      iteration and gives an empty board. */
  function NullGrid<T>(size: int, blank: T): (g: seq<seq<T>>)
    ensures |g| == (if size < 0 then 0 else size)
    ensures forall i :: 0 <= i < |g| ==> |g[i]| == |g|
    ensures forall i, j :: 0 <= i < |g| && 0 <= j < |g| ==> g[i][j] == blank
  {
    var n := if size < 0 then 0 else size;
    seq(n, _ => seq(n, _ => blank))
  }

  /** `initTicTacToeBoard(size)`. */
  function InitTicTacToeBoard(size: int): (b: Board)
    ensures IsSquare(b, |b|) && AllEmpty(b, |b|)
    ensures |b| == (if size < 0 then 0 else size)
  {
    NullGrid(size, Empty)
  }

  /** The board a fresh game builds (`initNewBoard`) is the one
      `initTicTacToeBoard` builds. */
  lemma NewGameBoardIsInitBoard(size: nat, winCondition: int, startingSide: Side)
    ensures TicTacToe.NewGame(size, winCondition, startingSide).board == InitTicTacToeBoard(size)
  {
  }

  /** `initTicTacToeState()`. */
  function InitTicTacToeState(): (st: TicTacToeState)
    ensures IsSquare(st.board, 12) && AllEmpty(st.board, 12)
    ensures st.winCondition == 5 && st.activePlayer == O
    ensures st.score == Score(0, 0, 0) && st.winner == Pending
  {
    TicTacToeState(InitTicTacToeBoard(12), 5, O, NoScore, Pending)
  }

  /** The initial state record agrees with a fresh 12-by-12, five-in-a-row
      game started by O. */
  lemma InitStateMatchesNewGame()
    ensures var g := TicTacToe.NewGame(12, 5, O);
      var st := InitTicTacToeState();
      && st.board == g.board && st.winCondition == g.winCondition
      && st.activePlayer == g.activePlayer && st.winner == g.winner
  {
  }

  /** `initUTicTacToeBoard()`: a 3-by-3 grid of 3-by-3 null boards. */
  function InitUTicTacToeBoard(): (ub: seq<seq<Board>>)
    ensures |ub| == 3 && forall i :: 0 <= i < 3 ==> |ub[i]| == 3
    ensures forall i, j :: 0 <= i < 3 && 0 <= j < 3 ==>
      IsSquare(ub[i][j], 3) && AllEmpty(ub[i][j], 3)
  {
    seq(3, _ => seq(3, _ => InitTicTacToeBoard(3)))
  }

  /** `initUTicTacToeState()`. */
  function InitUTicTacToeState(): (st: UTicTacToeState)
    ensures st.board == InitUTicTacToeBoard()
    ensures |st.segmentBoard| == 3 && forall i :: 0 <= i < 3 ==> |st.segmentBoard[i]| == 3
    ensures forall i, j :: 0 <= i < 3 && 0 <= j < 3 ==> st.segmentBoard[i][j] == Pending
    ensures st.activeSegment == None && st.activePlayer == O
    ensures st.score == Score(0, 0, 0) && st.winner == Pending
  {
    UTicTacToeState(InitUTicTacToeBoard(), NullGrid(3, Pending), None, O, NoScore, Pending)
  }
}
